=== FILE: README.md ===
# Shopco Hydrogen storefront: interaction logic

A Dafny model of the stateful and decision logic in five components of the
Shopco Hydrogen storefront (`hydrogen-storefront/app/components`):

- **AnnouncementBar** — a carousel of announcements. It rotates on a timer. A
  touch or mouse drag can take it over: the drag tracks instantaneous velocity
  and is resolved into a swipe by a distance threshold (30 px) and a velocity
  threshold (0.3 px/ms). A close button dismisses the bar for good. The
  carousel is one immutable `Carousel.State` record with the component's nine
  state hooks. Each handler is a pure transition. `Carousel.Step` dispatches
  the events (interval tick, close, touch and mouse start/move/end, the mouse
  leaving the slider or the bar, the mouse entering the bar), and
  `Carousel.Run` folds a sequence of them. `CarouselProperties` proves the
  reachable-state invariant, that rotation and dragging exclude each other,
  the clean return to idle, one-step swipes and the worked scenarios.
  `IndexCursor` holds the wraparound index, written with JavaScript's
  truncating `%`.
- **HeaderSearchBar** — the predictive-search dropdown. A blur closes it
  only after a 200 ms timer, and a focus that comes first cancels the timer.
  The component's timeout ref and the set of scheduled timers are explicit
  (`SearchBar.State`). The module also models the Enter key and the choice of
  dropdown body.
- **CartSummary** — the remembered gift-card codes (whitespace removed, no
  duplicates), the discount codes shown and submitted, and the subtotal and
  checkout null guards.
- **Aside** — the drawer selector (`search | cart | mobile | closed`): open,
  close, the `expanded` rule, closing on Escape, the scroll-lock rule and
  `useAside` outside a provider.
- **CartIcon** — the quantity badge (none, the count, or `99+`) and the click
  that opens the cart drawer.

React state setters are read as sequential assignments. `Date.now()`, pointer
coordinates, the slider's width, the viewport width and key names are
parameters. The rotation interval and the blur timeout are events. Pixels and
milliseconds are `int`; velocity and percentages are exact `real`s.

Points about the code that shape the model:

- The swipe decision mixes sign conventions. `diff = startX - currentX` is
  positive for a leftward drag and is tested first, while velocity is
  `currentX - previousX`, positive for a rightward movement. The model keeps
  both signs as written (`Carousel.Resolve`,
  `CarouselProperties.RightwardFlickAdvances`: a rightward drag that ends in
  a fast rightward flick advances).
- `handleStart` does not check visibility. The bar renders nothing when it is
  dismissed or has no announcements, so no pointer handler is attached then.
  `Carousel.Step` drops every event except the interval while
  `Carousel.Rendered` is false.
- The `interval` prop reaches `setInterval` unchecked. The model has no
  interval duration; each firing is an `Interval` event.
- Besides drags, hovering over the bar also pauses rotation (lines 224-230).
  The model includes this as `BarMouseEnter` / `BarMouseLeave`.
- The slider has no `onTouchCancel` handler. A touch the browser cancels
  leaves the drag open and rotation stopped until some later release
  (`TouchCancel`, `CarouselProperties.CancelledTouchStallsRotation`).

## Model

| member | source | states |
|---|---|---|
| IndexCursor.JsRem | hydrogen-storefront/app/components/AnnouncementBar.tsx:74 | JavaScript's remainder for a positive divisor: it lies strictly between -n and n, has the sign of the dividend, and equals the Euclidean residue for a non-negative dividend |
| IndexCursor.Next | hydrogen-storefront/app/components/AnnouncementBar.tsx:74 | `(i + 1) % n` keeps a valid index in `[0, n)` and wraps the last index to 0 |
| IndexCursor.Prev | hydrogen-storefront/app/components/AnnouncementBar.tsx:128 | `(i - 1 + n) % n` keeps a valid index in `[0, n)` and wraps 0 to the last index |
| IndexCursor.PrevNextRoundTrip | hydrogen-storefront/app/components/AnnouncementBar.tsx:125-128 | a forward step and a backward step undo each other, in either order |
| IndexCursor.AdvanceIsMod | hydrogen-storefront/app/components/AnnouncementBar.tsx:73-75 | any number k of rotation ticks or forward swipes from a valid index lands on (i + k) mod n, which stays in `[0, n)` |
| IndexCursor.RetreatIsMod | hydrogen-storefront/app/components/AnnouncementBar.tsx:126-128 | any number k of backward swipes lands on (i - k) mod n, which stays in `[0, n)` |
| IndexCursor.FullLap | hydrogen-storefront/app/components/AnnouncementBar.tsx:73-75 | n forward steps return to the starting announcement |
| Carousel.Tick | hydrogen-storefront/app/components/AnnouncementBar.tsx:70-78 | an interval firing changes nothing unless the bar is visible, unpaused, not dragging and has more than one announcement; then only the index changes, to (index + 1) mod n |
| Carousel.Dismiss | hydrogen-storefront/app/components/AnnouncementBar.tsx:80-82 | closing hides the bar and changes nothing else |
| Carousel.Start | hydrogen-storefront/app/components/AnnouncementBar.tsx:85-93 | a gesture start pauses and starts dragging, records x as both start and current position, records y (0 for a mouse), zeroes the velocity and stamps the time; visibility and index are untouched |
| Carousel.TimeDelta | hydrogen-storefront/app/components/AnnouncementBar.tsx:99 | the elapsed time between samples is at least 1 ms and is the real elapsed time whenever that is larger |
| Carousel.Move | hydrogen-storefront/app/components/AnnouncementBar.tsx:95-110 | outside a drag a move changes nothing; during a drag velocity times the elapsed time equals the distance moved, the speed never exceeds the distance, and only position, velocity and time change |
| Carousel.Resolve | hydrogen-storefront/app/components/AnnouncementBar.tsx:115-130 | the release snaps back exactly when neither threshold is exceeded; it goes forward exactly when committed with a leftward drag or a rightward speed over 0.3; otherwise a committed release always goes backward |
| Carousel.Apply | hydrogen-storefront/app/components/AnnouncementBar.tsx:122-130 | from a valid index, a forward release gives (i + 1) mod n, a backward one (i - 1) mod n and a snap-back leaves i, always within `[0, n)` |
| Carousel.End | hydrogen-storefront/app/components/AnnouncementBar.tsx:112-138 | outside a drag a release changes nothing; after a drag every gesture field is back at zero, rotation is unpaused, and the index moved forward, backward or not at all as the resolution decides, staying in `[0, n)` |
| Carousel.ScrollSuppressed | hydrogen-storefront/app/components/AnnouncementBar.tsx:146-157 | a touch move suppresses page scroll only during a drag whose horizontal travel exceeds 10 px and the vertical travel; during a drag it always does once the horizontal travel exceeds the vertical by more than 10 px |
| Carousel.Step | hydrogen-storefront/app/components/AnnouncementBar.tsx:141-185 | the interval is always a rotation tick; any other event does nothing while the bar is not rendered; otherwise a touch start or mouse press is `handleStart` with the touch's y or none, a touch or mouse move is `handleMove`, a touch end or mouse up is `handleEnd`, a close dismisses only a dismissible bar, a cancelled touch does nothing; outside a drag a slider mouse leave does nothing, entering the bar only pauses and leaving it only unpauses, while during a drag either mouse leave is `handleEnd`; no event but a tick or a release during a drag moves the index |
| Carousel.TickEnabled | hydrogen-storefront/app/components/AnnouncementBar.tsx:71 | the rotation interval runs only while the bar is visible, not paused, not dragging and has more than one announcement |
| Carousel.Rendered | hydrogen-storefront/app/components/AnnouncementBar.tsx:211-213 | the bar renders, and so receives pointer and button events, only while visible and with at least one announcement |
| Carousel.DragPercentage | hydrogen-storefront/app/components/AnnouncementBar.tsx:187-191 | the drag offset always lies in [-100, 100]; it is 0 outside a drag or before the slider mounts, and otherwise it is the drag distance as a percentage of the width, capped at either end |
| CarouselProperties.InitValid | hydrogen-storefront/app/components/AnnouncementBar.tsx:58-66 | the mounted state is visible, at index 0, unpaused, at rest and satisfies the invariant |
| CarouselProperties.StepKeepsValid | hydrogen-storefront/app/components/AnnouncementBar.tsx:70-185 | every event keeps the index in `[0, n)`, keeps a drag paused and keeps the gesture fields at zero outside a drag |
| CarouselProperties.RunKeepsValid | hydrogen-storefront/app/components/AnnouncementBar.tsx:70-185 | the invariant holds after any sequence of events |
| CarouselProperties.IndexAlwaysInRange | hydrogen-storefront/app/components/AnnouncementBar.tsx:71-74 | with at least one announcement, the index is in `[0, n)` after any events from mount |
| CarouselProperties.TickMovesIffEnabled | hydrogen-storefront/app/components/AnnouncementBar.tsx:70-75 | with more than one announcement, an interval firing moves the index iff the rotation guard holds |
| CarouselProperties.NoTickWhileDragging | hydrogen-storefront/app/components/AnnouncementBar.tsx:71 | the rotation timer never changes the state during a drag |
| CarouselProperties.StartAndEndToggleDragging | hydrogen-storefront/app/components/AnnouncementBar.tsx:141-185 | a touch start or mouse press always starts a paused drag; a touch end, mouse up or either mouse leave always ends at rest, unpaused after a drag; outside a drag the pause flag is kept, except that leaving the bar clears a hover pause |
| CarouselProperties.MouseLeaveIsEnd | hydrogen-storefront/app/components/AnnouncementBar.tsx:181-185 | the mouse leaving the slider or the bar during a drag is exactly a release |
| CarouselProperties.NoDragWithoutStart | hydrogen-storefront/app/components/AnnouncementBar.tsx:85-93 | outside a gesture, no event sequence without a gesture start begins dragging |
| CarouselProperties.DragHoldsIndexUntilEnd | hydrogen-storefront/app/components/AnnouncementBar.tsx:71 | inside a gesture, until a release arrives the engine keeps dragging and no event (no tick in particular) moves the index |
| CarouselProperties.LinksBlockedDuringGesture | hydrogen-storefront/app/components/AnnouncementBar.tsx:272-277 | from a gesture's start until a release, no announcement link can be followed |
| CarouselProperties.MovesKeepAnchor | hydrogen-storefront/app/components/AnnouncementBar.tsx:95-110 | moves never change visibility, the drag flag or the gesture's start point |
| CarouselProperties.ScrollLockAnchoredAtStart | hydrogen-storefront/app/components/AnnouncementBar.tsx:146-157 | after a touch start at (x0, y0) and any moves, a touch at (x, y) suppresses scroll iff abs(x - x0) exceeds both abs(y - y0) and 10 px |
| CarouselProperties.CancelledTouchStallsRotation | hydrogen-storefront/app/components/AnnouncementBar.tsx:237-243 | with no touch-cancel handler, a cancelled touch leaves the drag open, the index frozen and rotation stopped until a later release |
| CarouselProperties.HoverPausesRotation | hydrogen-storefront/app/components/AnnouncementBar.tsx:224-230 | hovering over the bar outside a drag pauses rotation; leaving the bar always leaves it unpaused and not dragging |
| CarouselProperties.SwipeMovesOneStep | hydrogen-storefront/app/components/AnnouncementBar.tsx:120-130 | a committed swipe moves the index exactly one step forward or backward around the ring; an uncommitted one leaves it |
| CarouselProperties.DistanceBeatsVelocity | hydrogen-storefront/app/components/AnnouncementBar.tsx:123-126 | a leftward drag over 30 px goes forward even with a velocity below -0.3 px/ms, the value the retreat test of line 126 looks for |
| CarouselProperties.RightwardFlickAdvances | hydrogen-storefront/app/components/AnnouncementBar.tsx:115-129 | because the distance is signed leftward-positive and the velocity rightward-positive, a 60 px drag to the right ending in a 2 px/ms rightward flick goes forward, not back |
| CarouselProperties.DismissIdempotent | hydrogen-storefront/app/components/AnnouncementBar.tsx:80-82 | closing twice is closing once |
| CarouselProperties.HiddenIsFrozen | hydrogen-storefront/app/components/AnnouncementBar.tsx:211-213 | once dismissed or with no announcements, no event sequence changes the state |
| CarouselProperties.DismissMidDrag | hydrogen-storefront/app/components/AnnouncementBar.tsx:80-82 | a close during a drag hides the bar at once and the rest of the gesture is ignored |
| CarouselProperties.SingleAnnouncement | hydrogen-storefront/app/components/AnnouncementBar.tsx:71 | with one announcement the index stays 0 under any events and the rotation clock never runs |
| CarouselProperties.ScenarioRetreatWraps | hydrogen-storefront/app/components/AnnouncementBar.tsx:126-128 | three items at index 0, a 50 px rightward drag at rest goes back to index 2 |
| CarouselProperties.ScenarioVelocityAdvanceWraps | hydrogen-storefront/app/components/AnnouncementBar.tsx:123-125 | three items at index 2, no displacement and 0.5 px/ms goes forward to index 0 |
| CarouselProperties.ScenarioSnapBack | hydrogen-storefront/app/components/AnnouncementBar.tsx:120 | 10 px and 0.1 px/ms leave the index unchanged |
| CarouselProperties.ScenarioMouseGesture | hydrogen-storefront/app/components/AnnouncementBar.tsx:167-179 | press at 100, move to 40, release: the index advances by one and the engine is back at rest |
| SearchBar.Focus | hydrogen-storefront/app/components/Header/HeaderSearchBar.tsx:21-35 | focus shows the dropdown, nulls the ref and cancels the timer it held, leaving no timer pending from a valid state |
| SearchBar.Blur | hydrogen-storefront/app/components/Header/HeaderSearchBar.tsx:37-43 | blur does not hide the dropdown; it schedules a fresh timer and points the ref at it, without cancelling an earlier one |
| SearchBar.Fire | hydrogen-storefront/app/components/Header/HeaderSearchBar.tsx:39-42 | a scheduled timer firing hides the dropdown (while mounted), nulls the ref and retires itself; a cleared timer does nothing |
| SearchBar.Unmount | hydrogen-storefront/app/components/Header/HeaderSearchBar.tsx:13-19 | unmounting cancels the timer the ref holds, leaving none from a valid state |
| SearchBar.BlurThenFocus | hydrogen-storefront/app/components/Header/HeaderSearchBar.tsx:27-42 | a blur followed by a focus before the timer fires leaves the dropdown open with no timer pending |
| SearchBar.BlurThenFire | hydrogen-storefront/app/components/Header/HeaderSearchBar.tsx:37-43 | a blur whose timer fires closes the dropdown and leaves nothing pending |
| SearchBar.UnmountLeavesNothing | hydrogen-storefront/app/components/Header/HeaderSearchBar.tsx:13-19 | after unmount no timer can change the state |
| SearchBar.AlternatingKeepsValid | hydrogen-storefront/app/components/Header/HeaderSearchBar.tsx:21-43 | when blurs only follow focuses, no timer is ever scheduled behind the ref |
| SearchBar.DoubleBlurOrphansTimer | hydrogen-storefront/app/components/Header/HeaderSearchBar.tsx:39 | two blurs without a focus between them leave the first timer unreferenced; a later focus cannot cancel it and it still closes the dropdown |
| SearchBar.KeyDown | hydrogen-storefront/app/components/Header/HeaderSearchBar.tsx:45-53 | Enter opens the search page once and prevents the default; any other key does nothing |
| SearchBar.Dropdown | hydrogen-storefront/app/components/Header/HeaderSearchBar.tsx:79-133 | the dropdown shows iff focused; it shows the loading note iff loading with a term, the empty note iff otherwise there are no results, and otherwise the results, with "View all" iff the term is non-empty |
| CartSummary.IsSpace | hydrogen-storefront/app/components/CartSummary.tsx:149 | the characters JavaScript's `\s` matches: the ASCII whitespace, no-break space, the Unicode space separators, line and paragraph separators and the byte-order mark |
| CartSummary.StripSpaces | hydrogen-storefront/app/components/CartSummary.tsx:149 | the stored code contains no JavaScript whitespace and is no longer than the input |
| CartSummary.StripAppend | hydrogen-storefront/app/components/CartSummary.tsx:149 | removing whitespace distributes over concatenation, so every other character survives in order |
| CartSummary.StripNoSpace | hydrogen-storefront/app/components/CartSummary.tsx:149 | a code without whitespace is stored unchanged |
| CartSummary.StripContents | hydrogen-storefront/app/components/CartSummary.tsx:149 | a character is in the stored code iff it is in the input and is not whitespace |
| CartSummary.StripIdempotent | hydrogen-storefront/app/components/CartSummary.tsx:149 | removing whitespace twice is removing it once |
| CartSummary.SaveAppliedCode | hydrogen-storefront/app/components/CartSummary.tsx:148-153 | the stripped code ends up in the list; a known code leaves the list as it was; a new one is appended after the unchanged old entries; nothing else is added and a duplicate-free list stays duplicate-free |
| CartSummary.SaveIdempotent | hydrogen-storefront/app/components/CartSummary.tsx:150-152 | saving the same code twice is saving it once |
| CartSummary.SaveIgnoresSpaces | hydrogen-storefront/app/components/CartSummary.tsx:149-152 | codes that differ only in whitespace are remembered once |
| CartSummary.SaveAllClean | hydrogen-storefront/app/components/CartSummary.tsx:148-153 | after any sequence of saves from a clean list, entries are distinct and whitespace-free |
| CartSummary.SubmitGiftCard | hydrogen-storefront/app/components/CartSummary.tsx:228-231 | a missing or empty submitted code remembers nothing; any other code is saved |
| CartSummary.BlankCodeRemembersEmpty | hydrogen-storefront/app/components/CartSummary.tsx:228-231 | a whitespace-only code passes the emptiness test and is remembered as the empty string |
| CartSummary.ApplicableCodes | hydrogen-storefront/app/components/CartSummary.tsx:64-67 | a missing discount list gives no codes; a present one gives its applicable codes |
| CartSummary.Codes | hydrogen-storefront/app/components/CartSummary.tsx:64-67 | a code is shown iff some applicable discount carries it, with no more codes than discounts |
| CartSummary.CodesAppend | hydrogen-storefront/app/components/CartSummary.tsx:64-67 | the projection distributes over concatenation, so codes appear in the discounts' original order |
| CartSummary.CodesEmptyIff | hydrogen-storefront/app/components/CartSummary.tsx:64-67 | no code is shown iff no discount is applicable |
| CartSummary.DiscountListHiddenIff | hydrogen-storefront/app/components/CartSummary.tsx:64-72 | the discount list is hidden iff the cart has no discount list or no applicable discount |
| CartSummary.DiscountFormInputs | hydrogen-storefront/app/components/CartSummary.tsx:123-125 | a discount form submits the codes it is given, or the empty list |
| CartSummary.DiscountForms | hydrogen-storefront/app/components/CartSummary.tsx:75-92 | the Remove form submits no codes; the Apply form submits the applicable codes |
| CartSummary.Subtotal | hydrogen-storefront/app/components/CartSummary.tsx:29-33 | the subtotal shows a dash iff the amount is absent or empty, and otherwise the amount itself |
| CartSummary.CheckoutLink | hydrogen-storefront/app/components/CartSummary.tsx:43-44 | the checkout link renders iff the URL is present and non-empty, and then points to that URL |
| Aside.Initial | hydrogen-storefront/app/components/Aside.tsx:108 | the provider starts with no drawer expanded |
| Aside.Open | hydrogen-storefront/app/components/Aside.tsx:114 | after `open(mode)` exactly the drawer of type `mode` is expanded |
| Aside.Close | hydrogen-storefront/app/components/Aside.tsx:115 | after `close()` no drawer is expanded and the provider is back at its initial type |
| Aside.CloseIdempotent | hydrogen-storefront/app/components/Aside.tsx:115 | closing twice is closing once |
| Aside.Expanded | hydrogen-storefront/app/components/Aside.tsx:37 | a drawer is expanded while its type is the provider's active type |
| Aside.AtMostOneExpanded | hydrogen-storefront/app/components/Aside.tsx:37 | two expanded drawers are the same drawer |
| Aside.KeyDown | hydrogen-storefront/app/components/Aside.tsx:48-53 | Escape closes an expanded drawer; any other key, or a collapsed drawer, changes nothing |
| Aside.EffectOverflow | hydrogen-storefront/app/components/Aside.tsx:42-58 | an expanded drawer locks root scroll on viewports up to 720 px and leaves it alone on wider ones; a collapsed drawer clears it |
| Aside.CleanupOverflow | hydrogen-storefront/app/components/Aside.tsx:61-64 | the effect cleanup clears the scroll lock |
| Aside.RerunOverflow | hydrogen-storefront/app/components/Aside.tsx:39-65 | after cleanup and re-run, root scroll is locked iff the drawer is expanded on a viewport up to 720 px, and otherwise cleared |
| Aside.UseAside | hydrogen-storefront/app/components/Aside.tsx:123-129 | outside a provider the hook fails with its error message; inside one it returns the provider's type |
| Aside.NoOpenStaysClosed | hydrogen-storefront/app/components/Aside.tsx:107-115 | starting closed, no sequence of closes and key presses without an `open` expands a drawer |
| CartIcon.BadgeFor | hydrogen-storefront/app/components/Header/Icons/CartIcon.tsx:48-50 | no badge iff the count is null or not positive; the capped badge iff it exceeds 99; otherwise the count itself, in 1..99 |
| CartIcon.Label | hydrogen-storefront/app/components/Header/Icons/CartIcon.tsx:50 | a badge always has text, and the capped badge reads "99+" |
| CartIcon.Decimal | hydrogen-storefront/app/components/Header/Icons/CartIcon.tsx:50 | a count prints as decimal digits with no leading zero (0 prints as "0"), and as at most two digits below 100 |
| CartIcon.Digit | hydrogen-storefront/app/components/Header/Icons/CartIcon.tsx:50 | a digit value prints as the decimal character of that value |
| CartIcon.DecimalRoundTrip | hydrogen-storefront/app/components/Header/Icons/CartIcon.tsx:50 | the printed count reads back as the count |
| CartIcon.BadgeLabel | hydrogen-storefront/app/components/Header/Icons/CartIcon.tsx:48-50 | the badge reads "99+" iff the count exceeds 99, and a count in 1..99 reads back as itself |
| CartIcon.Click | hydrogen-storefront/app/components/Header/Icons/CartIcon.tsx:14-17 | a click expands the cart drawer and collapses every other drawer |

## Left out

- Real time and timers: `Date.now()` is a parameter. The rotation interval and the 200 ms blur timeout are events, so the interval's length (and what happens with a zero or negative one) is not modelled.
- React scheduling: state setters are read as sequential assignments. Stale closures are not modelled. In React, leaving the bar during a drag runs two mouse-leave handlers that see the same `isDragging` snapshot. That could apply the functional index updater twice. The model runs the second handler on the updated state, where it does nothing.
- Announcement list: `Carousel.Config` fixes the list for a whole run, so `RunKeepsValid` and `IndexAlwaysInRange` hold for a list that does not change. The component reads `announcements.length` on every render and re-installs the interval when it changes (lines 71 and 78), but never brings the index back into range when the list shrinks: at index 2, a switch to two announcements leaves the index out of range, showing an empty slide, until the next tick or swipe wraps it.
- Carousel.End: requires at least one announcement. With none, the bar renders nothing and the handler cannot be reached. JavaScript's `% 0` would give NaN, which the model does not represent.
- Carousel.ScrollSuppressed: its own contract states the converse only with a 10 px margin over the vertical travel; the exact condition, tied to the gesture's start point, is `CarouselProperties.ScrollLockAnchoredAtStart`.
- Carousel.DragPercentage: requires a positive slider width. A zero `offsetWidth` would divide by zero (Infinity or NaN).
- Carousel.Move: the source's `timeDelta > 0` test is always true after the floor of 1, so the model has no branch for it. Non-finite coordinates are not modelled.
- Side effects that leave the component: `fetchResults` on focus, `goToSearch` and `closeSearch` navigation, `CartForm` submissions and fetchers, analytics `publish` on the cart click, and `preventDefault`/`stopPropagation` beyond the boolean decisions modelled here.
- Aside: every Aside's effect re-runs when the provider re-renders, because `close` is a new function each time. The final root `overflow` then depends on the order of sibling Asides in the page layout. That layout is not part of this model, so only one drawer's effect is modelled (`Aside.RerunOverflow`). The keydown listener's registration and abort are modelled as `Aside.KeyDown` applying only while the drawer is expanded.
- CartSummary: the applied gift-card list and `RemoveGiftCardForm` are rendering plus a network form. The `isAside` layout choice is styling.
- Animations (framer-motion variants, CSS transitions), the `translateX` string built from the index and offset, markup, and every other component file (hero banner, header menu, search results, icon and layout wrappers).

=== FILE: aside.dfy ===
/** The drawer ("aside") selector: one provider holds which drawer is
    active, every drawer is expanded exactly when it is the active one, an
    expanded drawer closes on Escape and locks page scroll on narrow
    viewports. */
module Aside {
  import opened Wrappers

  datatype AsideType = Search | Cart | Mobile | Closed

  /** The three drawers the page mounts. */
  predicate IsPanel(t: AsideType) {
    t != Closed
  }

  /** Viewports at most this wide lock page scroll while a drawer is open. */
  const NarrowViewport: int := 720

  /** The provider's initial active type. */
  function Initial(): (t: AsideType)
    ensures forall p: AsideType :: IsPanel(p) ==> !Expanded(p, t)
  {
    Closed
  }

  /** A drawer of type `t` is expanded while `t` is the active type. */
  predicate Expanded(t: AsideType, active: AsideType) {
    t == active
  }

  /** `open(mode)`: makes `mode` the active type. */
  function Open(active: AsideType, mode: AsideType): (r: AsideType)
    ensures forall p: AsideType :: Expanded(p, r) <==> p == mode
  {
    mode
  }

  /** `close()`: no drawer stays expanded. */
  function Close(active: AsideType): (r: AsideType)
    ensures forall p: AsideType :: IsPanel(p) ==> !Expanded(p, r)
    ensures r == Initial()
  {
    Closed
  }

  lemma CloseIdempotent(active: AsideType)
    ensures Close(Close(active)) == Close(active)
  {
  }

  /** At most one drawer is expanded at any time. */
  lemma AtMostOneExpanded(active: AsideType, p: AsideType, q: AsideType)
    requires IsPanel(p) && IsPanel(q) && Expanded(p, active) && Expanded(q, active)
    ensures p == q
  {
  }

  /** A key press seen by the drawer of type `t`: only Escape, and only
      while that drawer is expanded, closes it. */
  function KeyDown(t: AsideType, active: AsideType, key: string): (r: AsideType)
    ensures Expanded(t, active) && key == "Escape" ==> r == Closed
    ensures !Expanded(t, active) || key != "Escape" ==> r == active
  {
    if Expanded(t, active) && key == "Escape" then Close(active) else active
  }

  /** The root element's `overflow` after a drawer's effect body runs, from
      the value `prev` it found: narrow viewports lock scroll while the
      drawer is expanded, a collapsed drawer clears the lock, and a wide
      viewport leaves the value as it was. */
  function EffectOverflow(prev: string, expanded: bool, innerWidth: int): (r: string)
    ensures expanded && innerWidth <= NarrowViewport ==> r == "hidden"
    ensures expanded && innerWidth > NarrowViewport ==> r == prev
    ensures !expanded ==> r == ""
  {
    if expanded then (if innerWidth <= NarrowViewport then "hidden" else prev) else ""
  }

  /** The effect's cleanup: clears the lock. */
  function CleanupOverflow(prev: string): (r: string)
    ensures r == ""
  {
    ""
  }

  /** A re-run of the effect (cleanup, then body) locks scroll exactly when
      the drawer is expanded on a narrow viewport, and otherwise clears it. */
  lemma RerunOverflow(prev: string, expanded: bool, innerWidth: int)
    ensures EffectOverflow(CleanupOverflow(prev), expanded, innerWidth) == "hidden" <==>
      expanded && innerWidth <= NarrowViewport
    ensures EffectOverflow(CleanupOverflow(prev), expanded, innerWidth) in {"hidden", ""}
  {
  }

  /** `useAside`: the provider's context, or the error thrown outside one. */
  function UseAside(context: Option<AsideType>): (r: Result<AsideType, string>)
    ensures context.None? <==> r.Failure?
    ensures r.Failure? ==> r.error == "useAside must be used within an AsideProvider"
    ensures r.Success? ==> context == Some(r.value)
  {
    match context
    case None => Failure("useAside must be used within an AsideProvider")
    case Some(t) => Success(t)
  }

  /** The provider's inputs: an `open`, a `close`, or a key press reaching
      the drawer of a given type. */
  datatype Event = OpenDrawer(mode: AsideType) | CloseDrawer | Key(t: AsideType, key: string)

  function Step(active: AsideType, e: Event): AsideType {
    match e
    case OpenDrawer(m) => Open(active, m)
    case CloseDrawer => Close(active)
    case Key(t, key) => KeyDown(t, active, key)
  }

  function Run(active: AsideType, es: seq<Event>): AsideType
    decreases |es|
  {
    if es == [] then active else Run(Step(active, es[0]), es[1..])
  }

  /** Starting closed, without any `open` no drawer ever expands. */
  lemma {:induction false} NoOpenStaysClosed(active: AsideType, es: seq<Event>)
    requires active == Closed
    requires forall i :: 0 <= i < |es| ==> !es[i].OpenDrawer? || es[i].mode == Closed
    ensures Run(active, es) == Closed
    decreases |es|
  {
    if es != [] {
      NoOpenStaysClosed(Step(active, es[0]), es[1..]);
    }
  }
}

=== FILE: carousel.dfy ===
/** The announcement bar's carousel engine: one state record driven by an
    auto-rotate timer, a touch/mouse drag gesture with instantaneous velocity,
    and a dismiss button. Every React state setter is read as a sequential
    assignment, `Date.now()` and pointer coordinates are parameters, and the
    interval timer is an `Interval` event. Pixels and milliseconds are integers;
    velocity and percentages are exact rationals. */
module Carousel {
  import opened Wrappers
  import IndexCursor

  /** A drag longer than this many pixels commits a swipe. */
  const DistanceThreshold: int := 30
  /** A release faster than this many pixels per millisecond commits a swipe. */
  const VelocityThreshold: real := 0.3
  /** Horizontal travel a touch must exceed before page scroll is suppressed. */
  const ScrollLockThreshold: int := 10

  /** The component's nine state hooks. */
  datatype State = State(
    visible: bool,
    index: int,
    paused: bool,
    dragging: bool,
    startX: int,
    startY: int,
    currentX: int,
    velocity: real,
    lastMoveTime: int)

  /** The component's props that the engine reads: how many announcements
      there are and whether the close button is shown. */
  datatype Config = Config(count: nat, dismissible: bool)

  /** The state every hook starts with. */
  function Init(): State {
    State(true, 0, false, false, 0, 0, 0, 0.0, 0)
  }

  function Abs(x: int): nat {
    if x < 0 then -x else x
  }

  function RAbs(x: real): real {
    if x < 0.0 then -x else x
  }

  /** No gesture in progress and every gesture field back at zero. */
  predicate CleanIdle(s: State) {
    !s.dragging && s.startX == 0 && s.startY == 0 && s.currentX == 0 && s.velocity == 0.0
  }

  /** What every reachable state satisfies: the index addresses an item,
      a drag always pauses rotation, and outside a drag the gesture fields
      are at rest. */
  predicate Valid(s: State, n: nat) {
    && (n > 0 ==> IndexCursor.InRange(s.index, n))
    && (s.dragging ==> s.paused)
    && (!s.dragging ==> CleanIdle(s))
  }

  /** The bar renders (and so receives pointer events) only while visible
      and with at least one announcement. */
  predicate Rendered(s: State, n: nat) {
    s.visible && n > 0
  }

  // ---------------------------------------------------------------------
  // Rotation clock

  /** The guard under which the rotation interval is installed. */
  predicate TickEnabled(s: State, n: nat) {
    s.visible && !s.paused && !s.dragging && n > 1
  }

  /** One firing of the rotation interval. */
  function Tick(s: State, n: nat): (r: State)
    ensures !TickEnabled(s, n) ==> r == s
    ensures r.(index := s.index) == s
    ensures TickEnabled(s, n) && IndexCursor.InRange(s.index, n) ==>
      r.index == (s.index + 1) % n && IndexCursor.InRange(r.index, n)
  {
    if !TickEnabled(s, n) then s
    else s.(index := IndexCursor.Next(s.index, n))
  }

  /** The close button: hides the bar for good. */
  function Dismiss(s: State): (r: State)
    ensures !r.visible
    ensures r.(visible := s.visible) == s
  {
    s.(visible := false)
  }

  // ---------------------------------------------------------------------
  // Gesture tracker

  /** `handleStart`: a touch supplies `y`, a mouse press does not (`y || 0`). */
  function Start(s: State, x: int, y: Option<int>, now: int): (r: State)
    ensures r.dragging && r.paused
    ensures r.startX == x && r.currentX == x
    ensures r.startY == (if y.Some? then y.value else 0)
    ensures r.velocity == 0.0 && r.lastMoveTime == now
    ensures r.visible == s.visible && r.index == s.index
  {
    s.(paused := true, dragging := true, startX := x, startY := y.GetOr(0),
       currentX := x, velocity := 0.0, lastMoveTime := now)
  }

  /** The elapsed time between samples, never below one millisecond. */
  function TimeDelta(last: int, now: int): (dt: int)
    ensures dt >= 1
    ensures dt >= now - last
    ensures dt == 1 || dt == now - last
  {
    if now - last > 1 then now - last else 1
  }

  /** `handleMove`: records the pointer and its instantaneous velocity. */
  function Move(s: State, x: int, now: int): (r: State)
    ensures !s.dragging ==> r == s
    ensures s.dragging ==>
      && r.currentX == x
      && r.lastMoveTime == now
      && r.velocity * (TimeDelta(s.lastMoveTime, now) as real) == (x - s.currentX) as real
      && RAbs(r.velocity) <= Abs(x - s.currentX) as real
    ensures r.(currentX := s.currentX, velocity := s.velocity, lastMoveTime := s.lastMoveTime) == s
  {
    if !s.dragging then s
    else
      var dt := TimeDelta(s.lastMoveTime, now);
      s.(velocity := (x - s.currentX) as real / dt as real, currentX := x, lastMoveTime := now)
  }

  // ---------------------------------------------------------------------
  // Swipe resolver

  datatype Swipe = Forward | Backward | SnapBack

  /** A release commits a swipe when either the distance or the speed
      threshold is exceeded. */
  predicate Committed(diff: int, velocity: real) {
    Abs(diff) > DistanceThreshold || RAbs(velocity) > VelocityThreshold
  }

  /** The release decision exactly as the source orders its tests: the
      distance `diff = startX - currentX` is positive for a leftward drag, the
      velocity is positive for a rightward movement, and `diff > 0` is checked
      before the velocity. */
  function Resolve(diff: int, velocity: real): (d: Swipe)
    ensures d == SnapBack <==> !Committed(diff, velocity)
    ensures d == Forward <==> Committed(diff, velocity) && (diff > 0 || velocity > VelocityThreshold)
    ensures d == Backward <==> Committed(diff, velocity) && diff <= 0 && velocity <= VelocityThreshold
  {
    if Abs(diff) > DistanceThreshold || RAbs(velocity) > VelocityThreshold then
      if diff > 0 || velocity > VelocityThreshold then Forward
      else if diff < 0 || velocity < -VelocityThreshold then Backward
      else SnapBack
    else SnapBack
  }

  /** The index after a resolved release. */
  function Apply(d: Swipe, i: int, n: nat): (j: int)
    requires n > 0
    ensures IndexCursor.InRange(i, n) ==> IndexCursor.InRange(j, n)
    ensures IndexCursor.InRange(i, n) ==>
      j == match d
           case Forward => (i + 1) % n
           case Backward => (i - 1) % n
           case SnapBack => i
  {
    match d
    case Forward => IndexCursor.Next(i, n)
    case Backward => IndexCursor.Prev(i, n)
    case SnapBack => i
  }

  /** `handleEnd`: resolves the swipe and returns to a clean idle state.
      The source divides by the announcement count; with no announcements
      the bar renders nothing, so the handler is unreachable. */
  function End(s: State, n: nat): (r: State)
    requires n > 0
    ensures !s.dragging ==> r == s
    ensures s.dragging ==> CleanIdle(r) && !r.paused
    ensures r.visible == s.visible && r.lastMoveTime == s.lastMoveTime
    ensures IndexCursor.InRange(s.index, n) ==> IndexCursor.InRange(r.index, n)
    ensures s.dragging && IndexCursor.InRange(s.index, n) ==>
      r.index == match Resolve(s.startX - s.currentX, s.velocity)
                 case Forward => (s.index + 1) % n
                 case Backward => (s.index - 1) % n
                 case SnapBack => s.index
  {
    if !s.dragging then s
    else
      var index := Apply(Resolve(s.startX - s.currentX, s.velocity), s.index, n);
      s.(index := index, dragging := false, paused := false,
         startX := 0, startY := 0, currentX := 0, velocity := 0.0)
  }

  // ---------------------------------------------------------------------
  // Input adapters and rendering decisions

  /** Whether a touch move at `(x, y)` suppresses page scroll: only during a
      drag whose horizontal travel from the start both dominates the vertical
      travel and exceeds the threshold. */
  function ScrollSuppressed(s: State, x: int, y: int): (b: bool)
    ensures b ==> s.dragging && Abs(x - s.startX) > ScrollLockThreshold
    ensures b ==> Abs(x - s.startX) > Abs(y - s.startY)
    ensures s.dragging && Abs(x - s.startX) > Abs(y - s.startY) + ScrollLockThreshold ==> b
  {
    s.dragging && Abs(x - s.startX) > Abs(y - s.startY) && Abs(x - s.startX) > ScrollLockThreshold
  }

  /** Whether a click on an announcement's link is let through. */
  predicate LinkFollows(s: State) {
    !s.dragging
  }

  /** `offset` as a percentage of `width`. */
  function Percent(offset: int, width: int): real
    requires width > 0
  {
    (offset as real / width as real) * 100.0
  }

  /** The live drag-follow offset, in percent of the slider's width; a null
      slider ref (before mount) gives 0. */
  function DragPercentage(s: State, sliderWidth: Option<int>): (p: real)
    requires sliderWidth.Some? ==> sliderWidth.value > 0
    ensures -100.0 <= p <= 100.0
    ensures !s.dragging || sliderWidth.None? ==> p == 0.0
    ensures s.dragging && sliderWidth.Some? ==>
      var raw := Percent(s.startX - s.currentX, sliderWidth.value);
      (-100.0 <= raw <= 100.0 ==> p == raw)
      && (raw > 100.0 ==> p == 100.0)
      && (raw < -100.0 ==> p == -100.0)
  {
    var offset := if s.dragging then s.startX - s.currentX else 0;
    match sliderWidth
    case None => 0.0
    case Some(w) =>
      var raw := Percent(offset, w);
      var capped := if raw < 100.0 then raw else 100.0;
      if -100.0 > capped then -100.0 else capped
  }

  // ---------------------------------------------------------------------
  // Events

  /** Every input the engine reacts to. Touch events carry both coordinates,
      mouse events only `x`; `now` is the clock at delivery. */
  datatype Event =
    | Interval
    | Close
    | TouchStart(x: int, y: int, now: int)
    | TouchMove(x: int, y: int, now: int)
    | TouchEnd
    | TouchCancel
    | MouseDown(x: int, now: int)
    | MouseMove(x: int, now: int)
    | MouseUp
    | SliderMouseLeave
    | BarMouseEnter
    | BarMouseLeave

  predicate IsGestureStart(e: Event) {
    e.TouchStart? || e.MouseDown?
  }

  predicate IsGestureEnd(e: Event) {
    e.TouchEnd? || e.MouseUp? || e.SliderMouseLeave? || e.BarMouseLeave?
  }

  /** The engine's reaction to one event. Only the interval outlives the
      rendered markup; while nothing renders, no handler is attached and
      every pointer or button event is dropped. The slider has no
      touch-cancel handler, so a cancelled touch changes nothing. */
  function Step(s: State, cfg: Config, e: Event): (r: State)
    ensures !e.Interval? && !Rendered(s, cfg.count) ==> r == s
    ensures !e.Close? ==> r.visible == s.visible
    ensures e.Close? && Rendered(s, cfg.count) ==> (r.visible <==> !cfg.dismissible)
    ensures Rendered(s, cfg.count) && IsGestureStart(e) ==> r.dragging && r.paused
    ensures s.dragging && !IsGestureEnd(e) ==> r.dragging && r.index == s.index
    ensures Rendered(s, cfg.count) && IsGestureEnd(e) ==> !r.dragging
    ensures Rendered(s, cfg.count) && e.TouchStart? ==> r == Start(s, e.x, Some(e.y), e.now)
    ensures Rendered(s, cfg.count) && e.MouseDown? ==> r == Start(s, e.x, None, e.now)
    ensures Rendered(s, cfg.count) && (e.TouchMove? || e.MouseMove?) ==> r == Move(s, e.x, e.now)
    ensures Rendered(s, cfg.count) && (e.TouchEnd? || e.MouseUp?) ==> r == End(s, cfg.count)
    ensures e.Interval? ==> r == Tick(s, cfg.count)
    ensures e.Close? && Rendered(s, cfg.count) ==> r == (if cfg.dismissible then Dismiss(s) else s)
    ensures e.TouchCancel? ==> r == s
    ensures !s.dragging && e.SliderMouseLeave? ==> r == s
    ensures Rendered(s, cfg.count) && !s.dragging && e.BarMouseEnter? ==> r == s.(paused := true)
    ensures Rendered(s, cfg.count) && !s.dragging && e.BarMouseLeave? ==> r == s.(paused := false)
    ensures Rendered(s, cfg.count) && s.dragging && (e.SliderMouseLeave? || e.BarMouseLeave?) ==> r == End(s, cfg.count)
    ensures !e.Interval? && !(s.dragging && IsGestureEnd(e)) ==> r.index == s.index
  {
    var n := cfg.count;
    if e.Interval? then Tick(s, n)
    else if !Rendered(s, n) then s
    else match e
      case Close => if cfg.dismissible then Dismiss(s) else s
      case TouchStart(x, y, now) => Start(s, x, Some(y), now)
      case TouchMove(x, _, now) => Move(s, x, now)
      case TouchEnd => End(s, n)
      case TouchCancel => s
      case MouseDown(x, now) => Start(s, x, None, now)
      case MouseMove(x, now) => Move(s, x, now)
      case MouseUp => End(s, n)
      case SliderMouseLeave => if s.dragging then End(s, n) else s
      case BarMouseEnter => if !s.dragging then s.(paused := true) else s
      case BarMouseLeave =>
        var t := if !s.dragging then s.(paused := false) else s;
        if t.dragging then End(t, n) else t
  }

  /** The state after delivering `es` in order. */
  function Run(s: State, cfg: Config, es: seq<Event>): State
    decreases |es|
  {
    if es == [] then s else Run(Step(s, cfg, es[0]), cfg, es[1..])
  }
}

=== FILE: carousel_properties.dfy ===
/** Properties of the announcement carousel over single events and over
    arbitrary event sequences: the reachable-state invariant, mutual
    exclusion between the rotation clock and a drag, the clean return to
    idle, and a few concrete gestures. */
module CarouselProperties {
  import IndexCursor
  import opened Carousel

  /** The mounted state is visible, at index 0, not paused and at rest. */
  lemma InitValid(n: nat)
    ensures Valid(Init(), n) && CleanIdle(Init())
    ensures Init().visible && Init().index == 0 && !Init().paused
  {
  }

  /** Every event keeps the reachable-state invariant. */
  lemma StepKeepsValid(s: State, cfg: Config, e: Event)
    requires Valid(s, cfg.count)
    ensures Valid(Step(s, cfg, e), cfg.count)
  {
  }

  /** The invariant holds after any sequence of events. */
  lemma {:induction false} RunKeepsValid(s: State, cfg: Config, es: seq<Event>)
    requires Valid(s, cfg.count)
    ensures Valid(Run(s, cfg, es), cfg.count)
    decreases |es|
  {
    if es != [] {
      StepKeepsValid(s, cfg, es[0]);
      RunKeepsValid(Step(s, cfg, es[0]), cfg, es[1..]);
    }
  }

  /** With at least one announcement, the index stays in `[0, n)` from
      mount onward, whatever events arrive. */
  lemma IndexAlwaysInRange(cfg: Config, es: seq<Event>)
    requires cfg.count > 0
    ensures IndexCursor.InRange(Run(Init(), cfg, es).index, cfg.count)
  {
    RunKeepsValid(Init(), cfg, es);
  }

  /** The rotation timer never fires during a drag. */
  lemma NoTickWhileDragging(s: State, cfg: Config)
    requires s.dragging
    ensures Step(s, cfg, Interval) == s
  {
  }

  /** A gesture start always leaves the engine dragging and paused. A
      gesture end (touch end, mouse up, or either mouse leave) always leaves
      it at rest; after a drag it is also unpaused, while outside a drag
      only leaving the bar clears a hover pause. */
  lemma StartAndEndToggleDragging(s: State, cfg: Config, e: Event)
    requires Rendered(s, cfg.count) && Valid(s, cfg.count)
    ensures IsGestureStart(e) ==> Step(s, cfg, e).dragging && Step(s, cfg, e).paused
    ensures IsGestureEnd(e) && s.dragging ==> CleanIdle(Step(s, cfg, e)) && !Step(s, cfg, e).paused
    ensures IsGestureEnd(e) && !s.dragging ==> Step(s, cfg, e).paused == (s.paused && !e.BarMouseLeave?)
    ensures IsGestureEnd(e) ==> CleanIdle(Step(s, cfg, e))
  {
  }

  /** With more than one announcement, an interval firing moves the index
      exactly when the rotation guard holds. */
  lemma TickMovesIffEnabled(s: State, n: nat)
    requires n > 1 && IndexCursor.InRange(s.index, n)
    ensures Tick(s, n) != s <==> TickEnabled(s, n)
  {
  }

  /** Moves change neither visibility, nor the drag flag, nor where the
      gesture started. */
  lemma {:induction false} MovesKeepAnchor(s: State, cfg: Config, es: seq<Event>)
    requires forall i :: 0 <= i < |es| ==> es[i].TouchMove? || es[i].MouseMove?
    ensures Run(s, cfg, es).visible == s.visible
    ensures Run(s, cfg, es).dragging == s.dragging
    ensures Run(s, cfg, es).startX == s.startX && Run(s, cfg, es).startY == s.startY
    decreases |es|
  {
    if es != [] {
      MovesKeepAnchor(Step(s, cfg, es[0]), cfg, es[1..]);
    }
  }

  /** Page scroll is suppressed exactly when the horizontal travel from
      where the touch began exceeds both the vertical travel and 10 px,
      however many moves came in between. */
  lemma ScrollLockAnchoredAtStart(s: State, cfg: Config, x0: int, y0: int, t: int,
                                  moves: seq<Event>, x: int, y: int)
    requires Rendered(s, cfg.count)
    requires forall i :: 0 <= i < |moves| ==> moves[i].TouchMove? || moves[i].MouseMove?
    ensures ScrollSuppressed(Run(s, cfg, [TouchStart(x0, y0, t)] + moves), x, y) <==>
      Abs(x - x0) > Abs(y - y0) && Abs(x - x0) > ScrollLockThreshold
  {
    assert ([TouchStart(x0, y0, t)] + moves)[0] == TouchStart(x0, y0, t);
    assert ([TouchStart(x0, y0, t)] + moves)[1..] == moves;
    MovesKeepAnchor(Step(s, cfg, TouchStart(x0, y0, t)), cfg, moves);
  }

  /** The slider has no touch-cancel handler: after a touch the browser
      cancels, the drag stays open, the index is frozen and rotation stays
      stopped until some later release. */
  lemma CancelledTouchStallsRotation(s: State, cfg: Config, x: int, y: int, t: int, es: seq<Event>)
    requires Rendered(s, cfg.count)
    requires forall i :: 0 <= i < |es| ==> !IsGestureEnd(es[i])
    ensures Run(s, cfg, [TouchStart(x, y, t), TouchCancel] + es).dragging
    ensures Run(s, cfg, [TouchStart(x, y, t), TouchCancel] + es).index == s.index
    ensures !TickEnabled(Run(s, cfg, [TouchStart(x, y, t), TouchCancel] + es), cfg.count)
  {
    var all := [TouchStart(x, y, t), TouchCancel] + es;
    var started := Step(s, cfg, TouchStart(x, y, t));
    assert all[0] == TouchStart(x, y, t) && all[1..] == [TouchCancel] + es;
    assert ([TouchCancel] + es)[0] == TouchCancel && ([TouchCancel] + es)[1..] == es;
    assert Step(started, cfg, TouchCancel) == started;
    DragHoldsIndexUntilEnd(started, cfg, es);
  }

  /** Either mouse leave during a drag is exactly a `handleEnd`. */
  lemma MouseLeaveIsEnd(s: State, cfg: Config)
    requires Rendered(s, cfg.count) && s.dragging
    ensures Step(s, cfg, SliderMouseLeave) == End(s, cfg.count)
    ensures Step(s, cfg, BarMouseLeave) == End(s, cfg.count)
  {
  }

  /** Outside a gesture, only a gesture start can begin dragging. */
  lemma {:induction false} NoDragWithoutStart(s: State, cfg: Config, es: seq<Event>)
    requires !s.dragging
    requires forall i :: 0 <= i < |es| ==> !IsGestureStart(es[i])
    ensures !Run(s, cfg, es).dragging
    decreases |es|
  {
    if es != [] {
      NoDragWithoutStart(Step(s, cfg, es[0]), cfg, es[1..]);
    }
  }

  /** Inside a gesture, the engine keeps dragging and no event moves the
      index (in particular no rotation tick) until a gesture end arrives. */
  lemma {:induction false} DragHoldsIndexUntilEnd(s: State, cfg: Config, es: seq<Event>)
    requires s.dragging
    requires forall i :: 0 <= i < |es| ==> !IsGestureEnd(es[i])
    ensures Run(s, cfg, es).dragging
    ensures Run(s, cfg, es).index == s.index
    decreases |es|
  {
    if es != [] {
      var t := Step(s, cfg, es[0]);
      assert t.dragging && t.index == s.index;
      DragHoldsIndexUntilEnd(t, cfg, es[1..]);
    }
  }

  /** No announcement link can be followed from a gesture's start until a
      release arrives. */
  lemma LinksBlockedDuringGesture(s: State, cfg: Config, es: seq<Event>)
    requires s.dragging
    requires forall i :: 0 <= i < |es| ==> !IsGestureEnd(es[i])
    ensures !LinkFollows(Run(s, cfg, es))
  {
    DragHoldsIndexUntilEnd(s, cfg, es);
  }

  /** Hovering over the bar outside a drag pauses rotation, and leaving it
      always resumes rotation (ending any drag in progress). */
  lemma HoverPausesRotation(s: State, cfg: Config)
    requires Rendered(s, cfg.count) && Valid(s, cfg.count)
    ensures !s.dragging ==> Step(s, cfg, BarMouseEnter).paused
    ensures !TickEnabled(Step(s, cfg, BarMouseEnter), cfg.count)
    ensures !Step(s, cfg, BarMouseLeave).paused && !Step(s, cfg, BarMouseLeave).dragging
  {
  }

  /** A committed swipe moves the index exactly one step around the ring,
      and a release below both thresholds leaves it unchanged. */
  lemma SwipeMovesOneStep(s: State, n: nat)
    requires n > 0 && s.dragging && IndexCursor.InRange(s.index, n)
    ensures Committed(s.startX - s.currentX, s.velocity) ==>
      End(s, n).index == IndexCursor.Next(s.index, n) || End(s, n).index == IndexCursor.Prev(s.index, n)
    ensures !Committed(s.startX - s.currentX, s.velocity) ==> End(s, n).index == s.index
  {
  }

  /** The distance test wins: a leftward drag beyond the threshold advances
      even with a velocity below `-VelocityThreshold`, the value the retreat
      test looks for. */
  lemma DistanceBeatsVelocity(diff: int, v: real)
    requires diff > DistanceThreshold && v < -VelocityThreshold
    ensures Resolve(diff, v) == Forward
  {
  }

  /** The mixed signs in practice: a drag 60 px to the right that ends in a
      fast rightward flick (2 px/ms) advances instead of going back. */
  lemma RightwardFlickAdvances()
    ensures Resolve(-60, 2.0) == Forward
    ensures Run(Init(), Config(3, true),
                [MouseDown(100, 0), MouseMove(140, 1000), MouseMove(160, 1010), MouseUp]).index == 1
  {
  }

  /** Dismissing twice is dismissing once. */
  lemma DismissIdempotent(s: State, cfg: Config)
    ensures Step(Step(s, cfg, Close), cfg, Close) == Step(s, cfg, Close)
  {
  }

  /** Once nothing renders (dismissed, or no announcements), every further
      event is ignored: the timer guard is false and no handler is attached. */
  lemma {:induction false} HiddenIsFrozen(s: State, cfg: Config, es: seq<Event>)
    requires !Rendered(s, cfg.count)
    ensures Run(s, cfg, es) == s
    decreases |es|
  {
    if es != [] {
      assert Step(s, cfg, es[0]) == s;
      HiddenIsFrozen(s, cfg, es[1..]);
    }
  }

  /** A dismiss during a drag hides the bar immediately and the rest of the
      in-flight gesture is ignored. */
  lemma DismissMidDrag(s: State, cfg: Config, rest: seq<Event>)
    requires cfg.dismissible && Rendered(s, cfg.count) && s.dragging
    ensures !Run(s, cfg, [Close] + rest).visible
    ensures Run(s, cfg, [Close] + rest) == Dismiss(s)
  {
    assert ([Close] + rest)[1..] == rest;
    HiddenIsFrozen(Dismiss(s), cfg, rest);
  }

  /** With a single announcement the rotation clock never runs and every
      swipe resolves back to index 0. */
  lemma SingleAnnouncement(cfg: Config, es: seq<Event>)
    requires cfg.count == 1
    ensures Run(Init(), cfg, es).index == 0
    ensures !TickEnabled(Run(Init(), cfg, es), cfg.count)
  {
    IndexAlwaysInRange(cfg, es);
  }

  /** Scenario: three items at index 0, a 50 px rightward drag at rest
      retreats and wraps to index 2. */
  lemma ScenarioRetreatWraps()
    ensures End(State(true, 0, true, true, 100, 0, 150, 0.0, 0), 3).index == 2
  {
  }

  /** Scenario: three items at index 2, no displacement but a 0.5 px/ms
      release advances and wraps to index 0. */
  lemma ScenarioVelocityAdvanceWraps()
    ensures End(State(true, 2, true, true, 100, 0, 100, 0.5, 0), 3).index == 0
  {
  }

  /** Scenario: 10 px and 0.1 px/ms are both under threshold, so the index
      snaps back. */
  lemma ScenarioSnapBack()
    ensures End(State(true, 1, true, true, 110, 0, 100, 0.1, 0), 3).index == 1
  {
  }

  /** A whole mouse gesture: press at 100, move to 40 twenty milliseconds
      later, release. The drag of 60 px commits a forward swipe. */
  lemma ScenarioMouseGesture()
    ensures Run(Init(), Config(3, true), [MouseDown(100, 0), MouseMove(40, 20), MouseUp]).index == 1
    ensures CleanIdle(Run(Init(), Config(3, true), [MouseDown(100, 0), MouseMove(40, 20), MouseUp]))
  {
  }
}

=== FILE: cart_icon.dfy ===
/** The header's cart icon: whether a quantity badge shows and what it
    reads, and the click that opens the cart drawer. */
module CartIcon {
  import opened Wrappers
  import Aside

  /** Counts above this read as "99+". */
  const MaxShown: int := 99

  /** No badge, a badge with the count, or the capped "99+" badge. */
  datatype Badge = NoBadge | Count(n: nat) | Capped

  /** `count` is null while the cart is still loading. */
  function BadgeFor(count: Option<int>): (b: Badge)
    ensures b == NoBadge <==> count.None? || count.value <= 0
    ensures b == Capped <==> count.Some? && count.value > MaxShown
    ensures b.Count? ==> count == Some(b.n) && 1 <= b.n <= MaxShown
  {
    match count
    case None => NoBadge
    case Some(c) => if c > 0 then (if c > MaxShown then Capped else Count(c)) else NoBadge
  }

  /** The badge's text, when a badge shows. */
  function Label(b: Badge): (s: Option<string>)
    ensures s.None? <==> b == NoBadge
    ensures b == Capped ==> s == Some("99+")
  {
    match b
    case NoBadge => None
    case Count(n) => Some(Decimal(n))
    case Capped => Some("99+")
  }

  /** Decimal digits of a non-negative number (the badge only shows 1..99). */
  function Decimal(n: nat): (s: string)
    ensures |s| >= 1
    ensures forall i :: 0 <= i < |s| ==> '0' <= s[i] <= '9'
    ensures n < 100 ==> |s| <= 2
    ensures n > 0 ==> s[0] != '0'
    ensures n == 0 ==> s == "0"
  {
    if n < 10 then [Digit(n)] else Decimal(n / 10) + [Digit(n % 10)]
  }

  function Digit(d: nat): (c: char)
    requires d <= 9
    ensures '0' <= c <= '9'
    ensures (c as int) - ('0' as int) == d
  {
    ((d + '0' as int) as char)
  }

  /** The number a string of decimal digits denotes. */
  function DigitsValue(s: string): nat
    requires forall i :: 0 <= i < |s| ==> '0' <= s[i] <= '9'
  {
    if s == [] then 0
    else DigitsValue(s[..|s| - 1]) * 10 + ((s[|s| - 1] as int) - ('0' as int))
  }

  /** The label reads back as the count it shows. */
  lemma {:induction false} DecimalRoundTrip(n: nat)
    ensures DigitsValue(Decimal(n)) == n
  {
    if n >= 10 {
      var s := Decimal(n);
      DecimalRoundTrip(n / 10);
      assert s[..|s| - 1] == Decimal(n / 10);
    }
  }

  /** The badge reads "99+" exactly when the count exceeds 99, and
      otherwise reads back as the count itself. */
  lemma BadgeLabel(count: Option<int>)
    ensures Label(BadgeFor(count)) == Some("99+") <==> count.Some? && count.value > MaxShown
    ensures count.Some? && 0 < count.value <= MaxShown ==>
      Label(BadgeFor(count)).Some? && DigitsValue(Label(BadgeFor(count)).value) == count.value
  {
    if count.Some? && 0 < count.value <= MaxShown {
      DecimalRoundTrip(count.value);
      assert Decimal(count.value) != "99+";
    }
  }

  /** A click opens the cart drawer, whatever was active, and so collapses
      every other drawer. */
  function Click(active: Aside.AsideType): (r: Aside.AsideType)
    ensures Aside.Expanded(Aside.Cart, r)
    ensures forall p: Aside.AsideType :: p != Aside.Cart ==> !Aside.Expanded(p, r)
  {
    Aside.Open(active, Aside.Cart)
  }
}

=== FILE: cart_summary.dfy ===
/** The cart summary's list logic: the remembered gift-card codes (stored
    with whitespace removed, without duplicates), the discount codes shown
    and submitted, and the null guards on the subtotal and the checkout
    link. Strings are sequences of characters. */
module CartSummary {
  import opened Wrappers

  /** The characters JavaScript's `\s` matches. */
  predicate IsSpace(c: char) {
    || c == '\t' || c == '\n' || c == '\U{000B}' || c == '\U{000C}' || c == '\r'
    || c == ' ' || c == '\U{00A0}' || c == '\U{1680}'
    || ('\U{2000}' <= c <= '\U{200A}')
    || c == '\U{2028}' || c == '\U{2029}' || c == '\U{202F}' || c == '\U{205F}'
    || c == '\U{3000}' || c == '\U{FEFF}'
  }

  predicate NoSpace(s: string) {
    forall i :: 0 <= i < |s| ==> !IsSpace(s[i])
  }

  /** `code.replace(/\s/g, '')`. */
  function StripSpaces(s: string): (r: string)
    ensures NoSpace(r)
    ensures |r| <= |s|
  {
    if s == [] then []
    else if IsSpace(s[0]) then StripSpaces(s[1..])
    else [s[0]] + StripSpaces(s[1..])
  }

  /** Stripping distributes over concatenation: every non-space character
      is kept, in its original order. */
  lemma {:induction false} StripAppend(a: string, b: string)
    ensures StripSpaces(a + b) == StripSpaces(a) + StripSpaces(b)
    decreases |a|
  {
    if a == [] {
      assert a + b == b;
    } else {
      assert (a + b)[0] == a[0] && (a + b)[1..] == a[1..] + b;
      StripAppend(a[1..], b);
      if !IsSpace(a[0]) {
        assert [a[0]] + StripSpaces(a[1..]) + StripSpaces(b) == [a[0]] + (StripSpaces(a[1..]) + StripSpaces(b));
      }
    }
  }

  /** A string without whitespace is left as it is; in particular stripping
      twice is stripping once. */
  lemma {:induction false} StripNoSpace(s: string)
    requires NoSpace(s)
    ensures StripSpaces(s) == s
    decreases |s|
  {
    if s != [] {
      StripNoSpace(s[1..]);
    }
  }

  /** Exactly the whitespace characters are removed: a character survives
      iff it occurs in the input and is not `\s`. */
  lemma {:induction false} StripContents(s: string)
    ensures forall c :: c in StripSpaces(s) <==> c in s && !IsSpace(c)
    decreases |s|
  {
    if s != [] {
      StripContents(s[1..]);
      assert forall c :: c in s <==> c == s[0] || c in s[1..];
    }
  }

  lemma StripIdempotent(s: string)
    ensures StripSpaces(StripSpaces(s)) == StripSpaces(s)
  {
    StripNoSpace(StripSpaces(s));
  }

  predicate NoDuplicates<T(==)>(xs: seq<T>) {
    forall i, j :: 0 <= i < j < |xs| ==> xs[i] != xs[j]
  }

  /** `saveAppliedCode`: remembers the code, stripped of whitespace, unless
      it is already remembered. Existing entries keep their order and a new
      code goes at the end. */
  function SaveAppliedCode(codes: seq<string>, code: string): (r: seq<string>)
    ensures StripSpaces(code) in r
    ensures StripSpaces(code) in codes ==> r == codes
    ensures StripSpaces(code) !in codes ==> |r| == |codes| + 1 && r[..|codes|] == codes
    ensures forall c :: c in r ==> c in codes || c == StripSpaces(code)
    ensures NoDuplicates(codes) ==> NoDuplicates(r)
  {
    var formatted := StripSpaces(code);
    if formatted in codes then codes else codes + [formatted]
  }

  /** Saving the same code twice remembers it once. */
  lemma SaveIdempotent(codes: seq<string>, code: string)
    ensures SaveAppliedCode(SaveAppliedCode(codes, code), code) == SaveAppliedCode(codes, code)
  {
  }

  /** Codes that differ only in whitespace are the same remembered code. */
  lemma SaveIgnoresSpaces(codes: seq<string>, a: string, b: string)
    requires StripSpaces(a) == StripSpaces(b)
    ensures SaveAppliedCode(SaveAppliedCode(codes, a), b) == SaveAppliedCode(codes, a)
  {
  }

  /** Every entry remembered from the empty list onward is whitespace-free
      and distinct. */
  function SaveAll(codes: seq<string>, inputs: seq<string>): seq<string>
    decreases |inputs|
  {
    if inputs == [] then codes else SaveAll(SaveAppliedCode(codes, inputs[0]), inputs[1..])
  }

  lemma {:induction false} SaveAllClean(codes: seq<string>, inputs: seq<string>)
    requires NoDuplicates(codes) && forall i :: 0 <= i < |codes| ==> NoSpace(codes[i])
    ensures NoDuplicates(SaveAll(codes, inputs))
    ensures forall i :: 0 <= i < |SaveAll(codes, inputs)| ==> NoSpace(SaveAll(codes, inputs)[i])
    decreases |inputs|
  {
    if inputs != [] {
      var next := SaveAppliedCode(codes, inputs[0]);
      assert forall i :: 0 <= i < |next| ==> NoSpace(next[i]) by {
        forall i | 0 <= i < |next|
          ensures NoSpace(next[i])
        {
          if i >= |codes| {
            assert next[i] == StripSpaces(inputs[0]);
          }
        }
      }
      SaveAllClean(next, inputs[1..]);
    }
  }

  /** The gift-card form calls `saveAppliedCode` only when a non-empty code
      was submitted. */
  function SubmitGiftCard(codes: seq<string>, formCode: Option<string>): (r: seq<string>)
    ensures formCode.None? || formCode == Some("") ==> r == codes
    ensures formCode.Some? && formCode.value != "" ==> r == SaveAppliedCode(codes, formCode.value)
  {
    match formCode
    case None => codes
    case Some(c) => if c == "" then codes else SaveAppliedCode(codes, c)
  }

  /** A code of only whitespace passes the form's emptiness test and is
      remembered as the empty string. */
  lemma BlankCodeRemembersEmpty()
    ensures SubmitGiftCard([], Some(" ")) == [""]
  {
    assert StripSpaces(" ") == StripSpaces(" "[1..]);
  }

  datatype Discount = Discount(code: string, applicable: bool)

  /** The discount codes shown: the codes of the applicable discounts, in
      their original order; no discount list at all gives none. */
  function ApplicableCodes(discounts: Option<seq<Discount>>): (r: seq<string>)
    ensures discounts.None? ==> r == []
    ensures discounts.Some? ==> r == Codes(discounts.value)
  {
    match discounts
    case None => []
    case Some(ds) => Codes(ds)
  }

  /** The filter-then-map projection over a present list. */
  function Codes(ds: seq<Discount>): (r: seq<string>)
    ensures |r| <= |ds|
    ensures forall c :: c in r <==> exists d :: d in ds && d.applicable && d.code == c
  {
    if ds == [] then []
    else
      var rest := Codes(ds[1..]);
      assert forall d :: d in ds[1..] ==> d in ds;
      assert forall d :: d in ds && d != ds[0] ==> d in ds[1..];
      if ds[0].applicable then [ds[0].code] + rest else rest
  }

  /** The projection distributes over concatenation, so each applicable
      discount contributes its code at its own position. */
  lemma {:induction false} CodesAppend(a: seq<Discount>, b: seq<Discount>)
    ensures Codes(a + b) == Codes(a) + Codes(b)
    decreases |a|
  {
    if a == [] {
      assert a + b == b;
    } else {
      assert (a + b)[0] == a[0] && (a + b)[1..] == a[1..] + b;
      CodesAppend(a[1..], b);
      if a[0].applicable {
        assert [a[0].code] + Codes(a[1..]) + Codes(b) == [a[0].code] + (Codes(a[1..]) + Codes(b));
      }
    }
  }

  /** A list with no applicable discount shows no code. */
  lemma {:induction false} CodesEmptyIff(ds: seq<Discount>)
    ensures Codes(ds) == [] <==> forall i :: 0 <= i < |ds| ==> !ds[i].applicable
    decreases |ds|
  {
    if ds != [] {
      CodesEmptyIff(ds[1..]);
      assert forall i :: 1 <= i < |ds| ==> ds[i] == ds[1..][i - 1];
    }
  }

  /** The applied-discounts list is hidden exactly when no code is shown. */
  predicate DiscountListHidden(codes: seq<string>) {
    |codes| == 0
  }

  /** The applied-discounts list is hidden exactly when the cart has no
      applicable discount (or no discount list at all). */
  lemma DiscountListHiddenIff(discounts: Option<seq<Discount>>)
    ensures DiscountListHidden(ApplicableCodes(discounts)) <==>
      discounts.None? || forall i :: 0 <= i < |discounts.value| ==> !discounts.value[i].applicable
  {
    if discounts.Some? {
      CodesEmptyIff(discounts.value);
    }
  }

  /** The codes an update-discount form submits: the ones it is given, or
      none. */
  function DiscountFormInputs(given: Option<seq<string>>): (r: seq<string>)
    ensures given.Some? ==> r == given.value
    ensures given.None? ==> r == []
  {
    given.GetOr([])
  }

  /** The two forms of the discounts block: Remove is given no codes and so
      submits the empty list, which clears every discount; Apply submits the
      codes currently applied. */
  lemma DiscountForms(discounts: Option<seq<Discount>>)
    ensures DiscountFormInputs(None) == []
    ensures DiscountFormInputs(Some(ApplicableCodes(discounts))) == ApplicableCodes(discounts)
  {
  }

  /** The subtotal cell: the money amount when present and non-empty,
      otherwise a dash. */
  datatype SubtotalCell = Dash | Amount(amount: string)

  function Subtotal(amount: Option<string>): (c: SubtotalCell)
    ensures c == Dash <==> amount.None? || amount == Some("")
    ensures c.Amount? ==> amount == Some(c.amount)
  {
    match amount
    case Some(a) => if a != "" then Amount(a) else Dash
    case None => Dash
  }

  /** The checkout link, rendered only for a present, non-empty URL. */
  function CheckoutLink(checkoutUrl: Option<string>): (link: Option<string>)
    ensures link.None? <==> checkoutUrl.None? || checkoutUrl == Some("")
    ensures link.Some? ==> checkoutUrl == link
  {
    match checkoutUrl
    case Some(u) => if u != "" then Some(u) else None
    case None => None
  }
}

=== FILE: index_cursor.dfy ===
/** The announcement carousel's wraparound index over `n` items, written with
    JavaScript's remainder operator, which truncates toward zero (the result
    takes the sign of the dividend) rather than Dafny's Euclidean `%`. */
module IndexCursor {

  predicate InRange(i: int, n: int) {
    0 <= i < n
  }

  /** JavaScript's `a % n` for a positive divisor. */
  function JsRem(a: int, n: int): (r: int)
    requires n > 0
    ensures -n < r < n
    ensures 0 <= a ==> r == a % n
    ensures a <= 0 ==> r == -((-a) % n)
    ensures 0 <= a ==> 0 <= r
    ensures a <= 0 ==> r <= 0
  {
    if a >= 0 then a % n else -((-a) % n)
  }

  /** `(i + 1) % n`: the successor used by the rotation timer and a forward swipe. */
  function Next(i: int, n: int): (r: int)
    requires n > 0
    ensures InRange(i, n) ==> InRange(r, n)
    ensures InRange(i, n) ==> r == if i == n - 1 then 0 else i + 1
  {
    JsRem(i + 1, n)
  }

  /** `(i - 1 + n) % n`: the predecessor used by a backward swipe. */
  function Prev(i: int, n: int): (r: int)
    requires n > 0
    ensures InRange(i, n) ==> InRange(r, n)
    ensures InRange(i, n) ==> r == if i == 0 then n - 1 else i - 1
  {
    JsRem(i - 1 + n, n)
  }

  /** Stepping forward then back (or back then forward) returns to the same index. */
  lemma PrevNextRoundTrip(i: int, n: int)
    requires n > 0 && InRange(i, n)
    ensures Prev(Next(i, n), n) == i
    ensures Next(Prev(i, n), n) == i
  {
  }

  /** `k` successive forward steps. */
  function Advance(i: int, k: nat, n: int): int
    requires n > 0
  {
    if k == 0 then i else Next(Advance(i, k - 1, n), n)
  }

  /** `k` successive backward steps. */
  function Retreat(i: int, k: nat, n: int): int
    requires n > 0
  {
    if k == 0 then i else Prev(Retreat(i, k - 1, n), n)
  }

  /** A multiple of `n` strictly between `-n` and `n` is zero. */
  lemma SmallMultiple(x: int, n: int)
    requires n > 0 && -n < x * n < n
    ensures x == 0
  {
  }

  /** The residue is the unique `r` in `[0, n)` with `a == q * n + r`. */
  lemma ModUnique(a: int, n: int, q: int, r: int)
    requires n > 0 && 0 <= r < n && a == q * n + r
    ensures a % n == r
  {
    var q0, r0 := a / n, a % n;
    assert a == q0 * n + r0;
    assert (q - q0) * n == r0 - r;
    SmallMultiple(q - q0, n);
  }

  /** The wraparound successor agrees with the mathematical residue. */
  lemma SuccMod(a: int, n: int)
    requires n > 0
    ensures (a + 1) % n == if a % n == n - 1 then 0 else a % n + 1
  {
    var q, r := a / n, a % n;
    assert a == q * n + r;
    if r == n - 1 {
      ModUnique(a + 1, n, q + 1, 0);
    } else {
      ModUnique(a + 1, n, q, r + 1);
    }
  }

  /** The wraparound predecessor agrees with the mathematical residue. */
  lemma PredMod(a: int, n: int)
    requires n > 0
    ensures (a - 1) % n == if a % n == 0 then n - 1 else a % n - 1
  {
    var q, r := a / n, a % n;
    assert a == q * n + r;
    if r == 0 {
      ModUnique(a - 1, n, q - 1, n - 1);
    } else {
      ModUnique(a - 1, n, q, r - 1);
    }
  }

  /** Forward steps carry a quotient: `i + k` is `q * n` plus the index
      reached. */
  lemma {:induction false} AdvanceQuot(i: int, k: nat, n: int) returns (q: int)
    requires n > 0 && InRange(i, n)
    ensures InRange(Advance(i, k, n), n) && i + k == q * n + Advance(i, k, n)
  {
    if k == 0 {
      q := 0;
    } else {
      var q0 := AdvanceQuot(i, k - 1, n);
      if Advance(i, k - 1, n) == n - 1 {
        q := q0 + 1;
        assert (q0 + 1) * n == q0 * n + n;
      } else {
        q := q0;
      }
    }
  }

  /** Backward steps carry a quotient: `i - k` is `q * n` plus the index
      reached. */
  lemma {:induction false} RetreatQuot(i: int, k: nat, n: int) returns (q: int)
    requires n > 0 && InRange(i, n)
    ensures InRange(Retreat(i, k, n), n) && i - k == q * n + Retreat(i, k, n)
  {
    if k == 0 {
      q := 0;
    } else {
      var q0 := RetreatQuot(i, k - 1, n);
      if Retreat(i, k - 1, n) == 0 {
        q := q0 - 1;
        assert (q0 - 1) * n == q0 * n - n;
      } else {
        q := q0;
      }
    }
  }

  /** Any number of forward steps from a valid index lands on `(i + k) mod n`,
      so the index never leaves `[0, n)`. */
  lemma AdvanceIsMod(i: int, k: nat, n: int)
    requires n > 0 && InRange(i, n)
    ensures Advance(i, k, n) == (i + k) % n
    ensures InRange(Advance(i, k, n), n)
  {
    var q := AdvanceQuot(i, k, n);
    ModUnique(i + k, n, q, Advance(i, k, n));
  }

  /** Any number of backward steps from a valid index lands on `(i - k) mod n`. */
  lemma RetreatIsMod(i: int, k: nat, n: int)
    requires n > 0 && InRange(i, n)
    ensures Retreat(i, k, n) == (i - k) % n
    ensures InRange(Retreat(i, k, n), n)
  {
    var q := RetreatQuot(i, k, n);
    ModUnique(i - k, n, q, Retreat(i, k, n));
  }

  /** A full lap of `n` forward steps returns to the starting index. */
  lemma FullLap(i: int, n: int)
    requires n > 0 && InRange(i, n)
    ensures Advance(i, n, n) == i
  {
    AdvanceIsMod(i, n, n);
    ModUnique(i + n, n, 1, i);
  }
}

=== FILE: search_bar.dfy ===
/** The header's predictive search input: blur hides the results dropdown
    only after a 200 ms timer, a focus arriving first cancels that timer,
    and unmounting clears it. Timers are explicit handles: `handle` is the
    component's timeout ref and `live` the timers scheduled and not yet
    fired or cleared. The timer's firing is an event; its delay is not
    modelled. */
module SearchBar {
  import opened Wrappers

  datatype State = State(
    focused: bool,
    handle: Option<nat>,
    live: set<nat>,
    nextId: nat,
    mounted: bool)

  function Init(): State {
    State(false, None, {}, 0, true)
  }

  /** The timers the ref accounts for. */
  function Referenced(s: State): set<nat> {
    if s.handle.Some? then {s.handle.value} else {}
  }

  /** No timer is scheduled behind the ref's back, and every handle issued
      so far is older than the next one. */
  predicate Valid(s: State) {
    && s.live <= Referenced(s)
    && (forall t :: t in s.live ==> t < s.nextId)
  }

  /** `handleFocus`: clears the pending blur timer, if any, and shows the
      dropdown. */
  function Focus(s: State): (r: State)
    ensures r.focused && r.handle.None?
    ensures r.live == s.live - Referenced(s)
    ensures Valid(s) ==> r.live == {} && Valid(r)
    ensures r.nextId == s.nextId && r.mounted == s.mounted
  {
    var live := if s.handle.Some? then s.live - {s.handle.value} else s.live;
    s.(focused := true, handle := None, live := live)
  }

  /** `handleBlur`: schedules the delayed hide and stores its handle in the
      ref, without clearing whatever the ref held before. */
  function Blur(s: State): (r: State)
    ensures r.focused == s.focused
    ensures r.handle.Some? && r.handle.value in r.live
    ensures Valid(s) ==> r.handle.value !in s.live
    ensures r.live == s.live + Referenced(r)
    ensures Valid(s) && s.handle.None? ==> Valid(r)
    ensures r.mounted == s.mounted
  {
    var id := s.nextId;
    s.(handle := Some(id), live := s.live + {id}, nextId := s.nextId + 1)
  }

  /** The blur timer `t` fires: it hides the dropdown and nulls the ref. A
      timer already cleared or fired does nothing. After unmount the state
      setter has no effect. */
  function Fire(s: State, t: nat): (r: State)
    ensures t !in s.live ==> r == s
    ensures t in s.live ==> r.live == s.live - {t} && r.handle.None?
    ensures t in s.live && s.mounted ==> !r.focused
    ensures !s.mounted ==> r.focused == s.focused
    ensures Valid(s) ==> Valid(r)
  {
    if t !in s.live then s
    else
      var focused := if s.mounted then false else s.focused;
      s.(focused := focused, handle := None, live := s.live - {t})
  }

  /** The unmount cleanup: clears the timer the ref holds. */
  function Unmount(s: State): (r: State)
    ensures !r.mounted
    ensures r.live == s.live - Referenced(s)
    ensures Valid(s) ==> r.live == {} && Valid(r)
    ensures r.focused == s.focused
  {
    var live := if s.handle.Some? then s.live - {s.handle.value} else s.live;
    s.(live := live, mounted := false)
  }

  /** A blur followed by a focus before the timer fires leaves the dropdown
      open with no timer pending. */
  lemma BlurThenFocus(s: State)
    requires Valid(s) && s.handle.None?
    ensures Focus(Blur(s)).focused
    ensures Focus(Blur(s)).handle.None? && Focus(Blur(s)).live == {}
  {
  }

  /** A blur whose timer is allowed to fire closes the dropdown and leaves
      nothing pending. */
  lemma BlurThenFire(s: State)
    requires Valid(s) && s.handle.None? && s.mounted
    ensures !Fire(Blur(s), s.nextId).focused
    ensures Fire(Blur(s), s.nextId).handle.None? && Fire(Blur(s), s.nextId).live == {}
  {
  }

  /** Once unmounted no timer of the component remains to fire. */
  lemma UnmountLeavesNothing(s: State, t: nat)
    requires Valid(s)
    ensures Fire(Unmount(s), t) == Unmount(s)
  {
  }

  /** The events the input receives. */
  datatype Event = FocusIn | BlurOut | TimerFires(t: nat) | Teardown

  function Step(s: State, e: Event): State {
    match e
    case FocusIn => Focus(s)
    case BlurOut => Blur(s)
    case TimerFires(t) => Fire(s, t)
    case Teardown => Unmount(s)
  }

  /** A browser input only blurs after it has been focused, so a blur never
      meets a pending handle; such traces keep the invariant. */
  predicate Alternating(s: State, es: seq<Event>)
    decreases |es|
  {
    es == [] ||
    ((es[0].BlurOut? ==> s.handle.None?) && Alternating(Step(s, es[0]), es[1..]))
  }

  function Run(s: State, es: seq<Event>): State
    decreases |es|
  {
    if es == [] then s else Run(Step(s, es[0]), es[1..])
  }

  lemma {:induction false} AlternatingKeepsValid(s: State, es: seq<Event>)
    requires Valid(s) && Alternating(s, es)
    ensures Valid(Run(s, es))
    decreases |es|
  {
    if es != [] {
      AlternatingKeepsValid(Step(s, es[0]), es[1..]);
    }
  }

  /** Outside that discipline, a second blur overwrites the ref while the
      first timer is still scheduled: a later focus cancels only the second
      timer, and the first one still closes the dropdown. */
  lemma DoubleBlurOrphansTimer()
    ensures var s := Focus(Blur(Blur(Init())));
      s.focused && 0 in s.live && !Fire(s, 0).focused
  {
  }

  /** What a key press in the input does: how many times the search page is
      opened and whether the browser default is prevented. */
  datatype KeyOutcome = KeyOutcome(searches: nat, preventDefault: bool)

  function KeyDown(key: string): (o: KeyOutcome)
    ensures key == "Enter" ==> o.searches == 1 && o.preventDefault
    ensures key != "Enter" ==> o.searches == 0 && !o.preventDefault
  {
    if key == "Enter" then KeyOutcome(1, true) else KeyOutcome(0, false)
  }

  /** The predictive fetcher's state. */
  datatype FetchState = Idle | Loading | Submitting

  /** The dropdown's body: a loading note, the empty-results note, or the
      result lists with or without the "View all" link. */
  datatype Body = LoadingNote | EmptyNote | Results(viewAll: bool)

  /** Which dropdown body renders, if any. `total` is the number of results
      and `term` the current search term. */
  function Dropdown(focused: bool, fetch: FetchState, term: string, total: int): (b: Option<Body>)
    ensures b.Some? <==> focused
    ensures b == Some(LoadingNote) <==> focused && fetch == Loading && term != ""
    ensures b == Some(EmptyNote) <==> focused && !(fetch == Loading && term != "") && total == 0
    ensures b.Some? && b.value.Results? ==> total != 0 && (b.value.viewAll <==> term != "")
  {
    if !focused then None
    else if fetch == Loading && term != "" then Some(LoadingNote)
    else if total == 0 then Some(EmptyNote)
    else Some(Results(term != "" && total != 0))
  }
}

=== FILE: wrappers.dfy ===
/** Optional values and results used across the storefront model: an optional
    value (a nullable or `undefined` field of the source) and a result that
    carries either a value or an error message (a thrown `Error`). */
module Wrappers {

  datatype Option<+T> = None | Some(value: T) {

    /** The value, or `default` when absent (the source's `x || default`). */
    function GetOr(default: T): T {
      match this
      case Some(v) => v
      case None => default
    }
  }

  datatype Result<+T, +E> = Success(value: T) | Failure(error: E)
}
